=== FILE: README.md ===
# Scene, inventory and movement rules of a small top-down Phaser game

This project models the game rules of a small top-down exploration game in Dafny. The Phaser engine around them is not modelled. The modelled parts are:

- **Movement resolvers.** Each frame, four arrow-key booleans become a velocity and an animation decision. There are four variants:
  - the priority chain of the main and inside scenes, with one shared `"walk"` animation;
  - the standalone game's chain, with eight directional animation keys;
  - the base scene's additive resolver, where opposite keys cancel;
  - the side scroller's horizontal walk with a grounded jump.
- **Inventory store.** Texture keys map to display names, with an `"Unknown Item"` fallback. Collected names are appended without deduplication, and the panel text is rebuilt as `"Inventory: " + join(", ")`.
- **Inventory panel.** A just-pressed toggle flips `inventoryVisible` and sets both panel parts to the new flag.
- **Scene handoff.** The main scene's door starts the inside scene with the current state. `init(data)` adopts that state wholesale, or keeps the scene's default.

Modules:

- `Options` is the `undefined`-or-value wrapper.
- `Constants` holds the depth, key and layer tables.
- `Keys` holds the arrow-key state and the toggle-edge counting.
- `Movement` holds the three top-down resolvers and the `Intent` classification. The two chains are proved equal to that classification. The additive resolver agrees with it exactly when no opposing pair of keys is held.
- `SideScroller` holds the platformer update.
- `Inventory` holds the name lookup, `Join` and the panel texts.
- `Scenes` holds the game state, scene creation, pickup, toggle, frame step, runs of frames and the door handoff.

`Movement.IntentOf` and `Movement.IntentVelocity` give an independent reference for the movement rules: diagonal when a horizontal and a vertical key are both held, else a single axis, else idle, with left over right and up over down on each axis. Both source chains are proved equal to this reference on all inputs. The resolvers take the previous frame's velocity as a parameter. The top-down resolvers never read it, because the source zeroes both axes before looking at the keys. The parameter is there only to set them against the side scroller, which keeps the vertical velocity from frame to frame.

Where the scene files differ, each is modelled as written:

- The default state is `{[], true}` in the main and inside scenes and `{[], false}` in the base scene.
- The initial panel text is `"Inventory:"` in the main and base scenes. The inside scene uses `"Inventory: " + (join || "Empty")`.
- The main scene defines no `init`, so a payload passed to it is ignored.
- The base scene adopts an injected state but still shows the bare `"Inventory:"`, so an inherited non-empty inventory is not listed until the next pickup. The inside scene lists it at once.
- Both panel parts are always created hidden, even when the state (default or inherited) says the panel is visible. The program itself suggests the panel should follow the flag: the main and inside scenes default the flag to `true` beside panels created hidden, and the toggle handler sets both parts to the flag. The model follows the code and records the gap under Findings.
- The door passes the live state object rather than a copy. The model treats the payload as a value.
- The constant table has no `TILE_LAYER` or `BUILDING_LAYER` field. The two layer names the main scene reads therefore resolve to `undefined` (`Constants.MainSceneLayersUndefined`).

## Model

| member | source | states |
|---|---|---|
| Constants.Depth | src/scenes/constants.js:2-7 | depths are 0, 1, 10, 11; a layer is a UI layer exactly when its depth is at least 10 |
| Constants.DepthsStrictlyIncreasing | src/scenes/constants.js:2-7 | depth order equals declaration order (both directions); every UI layer is above every world layer |
| Constants.LayerField | src/scenes/constants.js:17-20 | the layer table defines exactly `FLOOR` → `"Floor"` and `FLOOR_DETAILS` → `"FloorDetails"`; any other field is undefined |
| Constants.MainSceneLayersUndefined | src/scenes/mainScene.js:179-193 | the `TILE_LAYER` and `BUILDING_LAYER` fields the main scene reads are undefined |
| Constants.ItemImagesDistinct | src/scenes/constants.js:31-32 | the two item texture keys differ, so the lookup's two branches never overlap |
| Keys.Presses | src/scenes/mainScene.js:317 | over n sampled frames the toggle fires at most (n+1)/2 times, and at most n/2 if the key starts down; the bound holds because a firing leaves the key down (see `Scenes.NoTogglesInARow`) |
| Keys.PressesAlternateWithReleases | src/scenes/mainScene.js:317 | presses plus the initial down-state equal releases plus the final down-state: one firing per press-and-release cycle |
| Keys.HeldKeyFiresAtMostOnce | src/scenes/insideScene.js:164 | holding the toggle key over any number of frames fires it at most once, and never if it was already down |
| Movement.IntentOf | src/scenes/mainScene.js:324-359 | the reference classification: idle iff no arrow is down; diagonal iff a horizontal and a vertical key are both held; the intent points left iff left is held and up iff up is held, so left beats right and up beats down; it points right iff right is held without left, and down iff down is held without up |
| Movement.IntentVelocity | src/scenes/mainScene.js:324-359 | every axis is −200, 0 or 200 (diagonals not normalised); the velocity is at rest exactly for the idle intent; x is negative exactly for the left-pointing intents and positive exactly for the right-pointing ones, and y likewise for up and down |
| Movement.IntentVelocityInjective | game.js:106-141 | the nine intents give nine different velocities |
| Movement.DirectionalAnim | game.js:108-141 | the animation stops exactly when idle; otherwise it plays a key starting with `walk-` |
| Movement.DirectionalAnimInjective | game.js:108-138 | each of the nine intents has its own animation: no two directions share a key |
| Movement.ChainResolve | src/scenes/mainScene.js:324-362 | the chain's velocity equals the reference intent velocity for all 16 key states; `"walk"` plays iff some arrow is down, and the animation stops iff none is |
| Movement.ChainMatchesReference | src/scenes/mainScene.js:324-362 | for every key state the chain's whole outcome is the reference one: the intent's velocity, with `"walk"` for any intent but idle and stop for idle |
| Movement.ChainDiagonalPriority | src/scenes/mainScene.js:324-345 | with a horizontal and a vertical key held both axes move; left+up (even with right) gives (−200,−200) |
| Movement.ChainSingleKey | src/scenes/mainScene.js:348-359 | single keys in priority left > right > up > down set only their own axis |
| Movement.DirectionalResolve | game.js:105-142 | the standalone chain equals the reference intent velocity with the intent's directional animation, for every key state |
| Movement.DirectionalOutcomes | game.js:106-141 | the nine (velocity, animation) outcomes are pairwise distinct |
| Movement.DirectionalNineOutcomes | game.js:106-141 | every key state yields one of the nine outcomes, and every one of the nine is reached by some key state |
| Movement.DirectionalRefinesChain | game.js:108-141 | the standalone chain moves exactly like the scenes' chain and animates in the same cases |
| Movement.AdditiveResolve | src/scenes/BaseScene.js:162-172 | each axis is −200, 0 or 200, zero iff its opposite keys agree, negative iff only left/up is down; walk plays iff the velocity is not (0,0) |
| Movement.AdditiveOppositesCancel | src/scenes/BaseScene.js:162-172 | left+right alone, or all four keys, give no movement and stop the animation |
| Movement.AdditiveAgreesWithChainIff | src/scenes/BaseScene.js:162-172 | the additive and chain resolvers give the same outcome iff no opposing pair is held |
| SideScroller.SideUpdate | src/scenes/sideScrollerScene.js:41-59 | left wins (−200, flipped), right alone gives 200 unflipped, neither gives 0 with the flip kept and the animation stopped; vy becomes −400 only with up on the ground, otherwise it is kept |
| SideScroller.HorizontalIndependentOfJump | src/scenes/sideScrollerScene.js:44-58 | vx, flip and animation do not depend on the up key or ground contact |
| SideScroller.VerticalVelocityCarriesOver | src/scenes/sideScrollerScene.js:42 | only vx is reset: with no key down the body keeps its vy, while the top-down chain rests |
| SideScroller.HorizontalMatchesChain | src/scenes/sideScrollerScene.js:44-54 | without vertical keys the platformer picks the same vx and animation as the top-down chain |
| SideScroller.AllScenesShareWalkKey | src/scenes/sideScrollerScene.js:44-52 | the side scroller, the scenes' chain and the base scene's additive resolver play no key but the constant table's `ANIMATIONS.WALK` (`"walk"`) |
| Inventory.ItemName | src/scenes/mainScene.js:44-50 | `"stuffedPeanut"` ↔ `"Stuffed Peanut"`, `"photoFrame"` ↔ `"Picture Frame"`, any other key ↔ `"Unknown Item"`; never empty, never fails |
| Inventory.Join | src/scenes/mainScene.js:55 | the joined length is the parts plus separators; the result starts with the first part; it is empty iff there is no part or only an empty one |
| Inventory.JoinAppend | src/scenes/mainScene.js:52-55 | appending a part extends the joined string by the separator and that part |
| Inventory.InventoryText | src/scenes/mainScene.js:54-56 | the text starts with `"Inventory: "` and has the joined length of the list after it |
| Inventory.InventoryTextGrows | src/scenes/BaseScene.js:43-47 | after a pickup the text is the old text plus `", " + name`, or `"Inventory: " + name` for the first pickup |
| Inventory.InsideInitialText | src/scenes/insideScene.js:145 | `"Inventory: Empty"` when the joined list is empty, otherwise the regular inventory text |
| Inventory.InsideInitialTextOfCollected | src/scenes/insideScene.js:145 | for inventories of real item names, `"Empty"` shows exactly for the empty inventory |
| Inventory.DuplicatesKept | src/scenes/mainScene.js:52-56 | two stuffed peanuts render as `"Inventory: Stuffed Peanut, Stuffed Peanut"` |
| Inventory.BareLabelHasNoTrailingList | src/scenes/BaseScene.js:132 | the initial label `"Inventory:"` carries no list and differs from the empty-inventory text by the trailing space |
| Scenes.DefaultState | src/scenes/BaseScene.js:5-8 | a fresh state has an empty inventory; it is visible in the main and inside scenes and hidden in the base scene |
| Scenes.InitialState | src/scenes/insideScene.js:40-44 | inside and base scenes adopt an injected state verbatim, else use their default; the main scene (no `init`) always uses its default |
| Scenes.InjectedStateNotMerged | src/scenes/BaseScene.js:55-59 | an injected state is adopted whole; a payload without a state leaves the default |
| Scenes.CreateMain | src/scenes/mainScene.js:197-287 | the main scene starts with the given state, player at (100,100), the two items in the world and a hidden panel labelled `"Inventory:"` |
| Scenes.CreateInside | src/scenes/insideScene.js:96-153 | the inside scene has no items, player at (100,100), and a hidden panel listing the inherited inventory whatever its flag |
| Scenes.CreateBase | src/scenes/BaseScene.js:88-138 | the player spawns at exactly `(playerX, playerY)`; the panel is hidden with `"Inventory:"` |
| Scenes.CollectItem | src/scenes/mainScene.js:41-57 | the item leaves the world; exactly one name is appended at the end with earlier entries unchanged; the text is `"Inventory: " + join`; visibility is unchanged |
| Scenes.CollectedItemGone | src/scenes/mainScene.js:42 | a collected item is no longer in the world, which shrinks by one |
| Scenes.CollectKeepsDuplicates | src/scenes/BaseScene.js:43 | two items with the same texture both land in the inventory |
| Scenes.OverlapNames | src/scenes/mainScene.js:41-50 | every name a batch of overlap reports adds is one of the three display names `"Stuffed Peanut"`, `"Picture Frame"`, `"Unknown Item"`, so none is empty |
| Scenes.OverlapNamesCount | src/scenes/mainScene.js:41-50 | a batch adds exactly one name per distinct reported id still in the world: a repeated or already collected id adds nothing |
| Scenes.ProcessOverlaps | src/scenes/mainScene.js:295-299 | a batch of overlaps removes exactly the reported items, leaving the others with their textures; it appends the names of the present ones in report order after the unchanged old inventory; the text then lists the new inventory; the flag and panel visibility are unchanged |
| Scenes.RepeatedOverlapCollectsOnce | src/scenes/mainScene.js:41-42 | an item reported twice in one step is collected once, since the first report destroys it |
| Scenes.Toggle | src/scenes/mainScene.js:317-321 | the flag flips and background and text visibility both equal the new flag; inventory and text are unchanged |
| Scenes.ToggleTwice | src/scenes/insideScene.js:164-168 | two toggles restore the state and leave the panel matching the flag |
| Scenes.Resolve | src/scenes/insideScene.js:171-209 | main and inside scenes move by the reference chain on all 16 key states; the base scene matches it iff no opposing pair is held |
| Scenes.Step | src/scenes/insideScene.js:74-210 | a frame never changes the inventory, items or text; the flag flips iff the toggle fired; without a toggle the scene is unchanged |
| Scenes.RunKeepsInventory | src/scenes/insideScene.js:162-210 | over any number of frames, the inventory, world items and text stay unchanged |
| Scenes.Run | src/scenes/insideScene.js:162-210 | a run of frames keeps the scene kind and spawn point; a run without a toggle changes nothing |
| Scenes.RunVisibilityParity | src/scenes/mainScene.js:317-321 | after any number of frames, the flag has flipped once per toggle frame |
| Scenes.InputsFrom | src/scenes/mainScene.js:315-321 | frame inputs built from raw key samples: one input per sample, carrying that sample's arrow keys; frame i toggles exactly when I is down at sample i and was up at the sample before (or at the start, for frame 0) |
| Scenes.NoTogglesInARow | src/scenes/mainScene.js:317 | in a sampled run, no two consecutive frames both toggle the panel |
| Scenes.TogglesArePresses | src/scenes/mainScene.js:317 | the number of toggle frames in a sampled run equals the number of the I key's up-to-down edges |
| Scenes.HeldToggleFlipsAtMostOnce | src/scenes/insideScene.js:164-168 | holding I across any number of frames flips the flag at most once, and not at all if I was already down |
| Scenes.SampledRunVisibility | src/scenes/mainScene.js:317-321 | after a sampled run, the flag has flipped once per press of I, whatever the arrow keys do |
| Scenes.DoorTransition | src/scenes/mainScene.js:302-305 | the door starts `"InsideSceneKey"` with the current state as payload |
| Scenes.EnterInside | src/scenes/insideScene.js:40-44 | the inside scene starts with the state its initializer derives from the payload, panel hidden |
| Scenes.HandoffAdoptsStateVerbatim | src/scenes/insideScene.js:40-44 | after the door, the inside scene runs with exactly the main scene's state and lists that inventory |
| Scenes.CollectWhileHiddenThenShow | src/scenes/mainScene.js:54-56 | a pickup while hidden already updates the text; the next toggle shows it with no recomputation |
| Scenes.FreshMainFirstToggleShowsNothing | src/scenes/mainScene.js:6-9 | the fresh main scene's panel disagrees with its flag, and the first toggle press leaves the panel as it was |
| Scenes.ShowPerState | src/scenes/mainScene.js:265-287 | the corrected creation: panel visibility follows the state's flag |
| Scenes.SyncedCreationStaysSynced | src/scenes/mainScene.js:317-321 | once the panel agrees with the flag, it agrees after any run of frames |
| Scenes.SyncedMainFirstToggleHides | src/scenes/mainScene.js:317-321 | with the corrected creation, the first toggle press hides the shown panel |
| Scenes.CollectKeepsSynced | src/scenes/mainScene.js:41-57 | a pickup keeps the panel in agreement with the flag |
| Scenes.InheritedVisibleFirstToggleShowsNothing | src/scenes/insideScene.js:139-167 | an inside scene entered with a visible flag, or a base scene given one, starts with the panel out of step with the flag, and the first press of I leaves the panel as it was |
| Scenes.CollectedNamesNonEmpty | src/scenes/mainScene.js:41-57 | the default inventories are empty, and a pickup or a batch of overlaps keeps every entry a non-empty name |
| Scenes.HandoffTextOfCollected | src/scenes/insideScene.js:145 | for an inventory the scenes built, the inside scene shows `"Inventory: Empty"` exactly when the handed-over inventory is empty, else the regular list |

## Findings

| source | as written | input that shows it | evidently intended | confidence | as-written member | corrected member |
|---|---|---|---|---|---|---|
| src/scenes/mainScene.js:6-9,278,286 | the state starts with `inventoryVisible: true` but both panel parts are created hidden, so flag and panel disagree | once `create()` completes (the layer names must resolve first, see Left out): a fresh main scene and one press of I: the flag becomes false and the panel stays hidden, so nothing changes on screen; the panel first appears on the second press. With no such caveat, the inside scene entered with an inherited `inventoryVisible: true` (insideScene.js:139, 152, 164-167) shows the same mismatch | the panel follows the flag, as the base scene's later `false` default suggests | medium, not executed | Scenes.FreshMainFirstToggleShowsNothing, Scenes.InheritedVisibleFirstToggleShowsNothing | Scenes.ShowPerState (with Scenes.SyncedCreationStaysSynced and Scenes.SyncedMainFirstToggleHides) |

## Left out

- Asset preloading, tilemap, tileset and layer construction, and `setCollisionByProperty`: these are engine calls whose behaviour is not in the source.
- Physics: integration, world-bounds clamping, hitbox sizes and offsets, and bounce. No gravity is configured, so the side scroller's vertical velocity changes only through the jump and the engine's collisions and world bounds. Overlap and collider detection is left out too. Overlaps enter the model as given item ids (`Scenes.ProcessOverlaps`) and as one door event.
- The fade-in tween and blink overlay: rendering with float alpha.
- Camera follow and bounds in the side scroller, and the NPC's sleep animation: both are decorative.
- Repeated door firing before the scene swap completes: this relies on the engine's scene replacement, so only one transition event is modelled. The payload is treated as a value, although the source passes `this.state` by reference.
- The `getInstance` singleton, the game configs in `src/index.js` and `game.js:3-18`, `anims.exists` guards and `console.log` calls: these are module and engine wiring.
- Keys.Presses: the toggle edge is modelled as a sampled up-to-down transition between frames. Phaser's `JustDown` latch is not modelled. That latch also fires for a press and release within one frame.
- Scenes.CreateMain: the main scene's layer construction is left out. With the undefined layer names it would fail at `setDepth` on the missing layer; `Constants.MainSceneLayersUndefined` states only the undefined lookups.
- The sprite keys `player` and `catSprite` (constants.js:22-25) are read only by engine calls (asset loading, sprite and animation creation), which are left out.
- Animation playback (`play(key, true)` continuing a running animation, `stop()` halting on the current frame) is reduced to the key played or `Stop`.

=== FILE: constants.dfy ===
/**
  The shared constant table of the game: render depths, asset keys,
  Tiled layer names and the animation key every scene plays.
 */
module Constants {
  import opened Options

  /** The four render depths, in the order they are declared. */
  datatype DepthLayer = Background | Foreground | UIBackground | UIForeground

  predicate IsUi(layer: DepthLayer) {
    layer.UIBackground? || layer.UIForeground?
  }

  /** Position of a layer in the declaration of the depth table. */
  function DeclarationIndex(layer: DepthLayer): nat {
    match layer
    case Background => 0
    case Foreground => 1
    case UIBackground => 2
    case UIForeground => 3
  }

  /** The numeric depth handed to the renderer for a layer. */
  function Depth(layer: DepthLayer): (d: nat)
    ensures d in {0, 1, 10, 11}
    ensures IsUi(layer) <==> d >= 10
  {
    match layer
    case Background => 0
    case Foreground => 1
    case UIBackground => 10
    case UIForeground => 11
  }

  /** Depths increase strictly in declaration order, so every UI part is drawn above the world. */
  lemma DepthsStrictlyIncreasing(a: DepthLayer, b: DepthLayer)
    ensures DeclarationIndex(a) < DeclarationIndex(b) <==> Depth(a) < Depth(b)
    ensures !IsUi(a) && IsUi(b) ==> Depth(a) < Depth(b)
  {
  }

  const StuffedPeanutImage: string := "stuffedPeanut"
  const PhotoFrameImage: string := "photoFrame"

  /** The one walk animation key shared by the top-down scenes and the side scroller. */
  const WalkAnim: string := "walk"

  /** The Tiled layer table: only the floor layers are defined. */
  const Layers: map<string, string> := map["FLOOR" := "Floor", "FLOOR_DETAILS" := "FloorDetails"]

  /** Reading a field of the layer table; a missing field reads as `undefined`. */
  function LayerField(field: string): (r: Option<string>)
    ensures r.Some? <==> field == "FLOOR" || field == "FLOOR_DETAILS"
    ensures field == "FLOOR" ==> r == Some("Floor")
    ensures field == "FLOOR_DETAILS" ==> r == Some("FloorDetails")
  {
    if field in Layers then Some(Layers[field]) else None
  }

  /** The two layer fields the main scene asks for are not in the table. */
  lemma MainSceneLayersUndefined()
    ensures LayerField("TILE_LAYER") == None
    ensures LayerField("BUILDING_LAYER") == None
  {
  }

  /** The two item images have different keys, so the name lookup's branches are disjoint. */
  lemma ItemImagesDistinct()
    ensures StuffedPeanutImage != PhotoFrameImage
  {
  }
}

=== FILE: inventory.dfy ===
/**
  The inventory store: display names resolved from an item's texture key,
  and the texts the inventory panel shows.
 */
module Inventory {
  import opened Constants

  const UnknownItem: string := "Unknown Item"
  const StuffedPeanutName: string := "Stuffed Peanut"
  const PictureFrameName: string := "Picture Frame"

  /** The label the panel carries before anything is collected in the main and base scenes. */
  const BareLabel: string := "Inventory:"
  const Prefix: string := "Inventory: "
  const Separator: string := ", "

  /**
    Display name of a collected item. Unregistered keys fall back to
    "Unknown Item"; the lookup never fails.
   */
  function ItemName(textureKey: string): (name: string)
    ensures name == StuffedPeanutName <==> textureKey == StuffedPeanutImage
    ensures name == PictureFrameName <==> textureKey == PhotoFrameImage
    ensures name == UnknownItem <==> textureKey != StuffedPeanutImage && textureKey != PhotoFrameImage
    ensures name != ""
  {
    if textureKey == StuffedPeanutImage then StuffedPeanutName
    else if textureKey == PhotoFrameImage then PictureFrameName
    else UnknownItem
  }

  /** Total length of the parts of a join plus its separators. */
  function JoinedLength(xs: seq<string>, sepLength: nat): nat
    decreases |xs|
  {
    if |xs| == 0 then 0
    else if |xs| == 1 then |xs[0]|
    else |xs[0]| + sepLength + JoinedLength(xs[1..], sepLength)
  }

  /** JavaScript's `Array.prototype.join` on strings. */
  function Join(xs: seq<string>, sep: string): (r: string)
    ensures |r| == JoinedLength(xs, |sep|)
    ensures |xs| > 0 ==> xs[0] <= r
    ensures |xs| == 1 ==> r == xs[0]
    ensures |sep| > 0 ==> (r == "" <==> xs == [] || xs == [""])
    decreases |xs|
  {
    if |xs| == 0 then ""
    else if |xs| == 1 then xs[0]
    else xs[0] + sep + Join(xs[1..], sep)
  }

  /** Appending one part extends the joined string by the separator and that part. */
  lemma {:induction false} JoinAppend(xs: seq<string>, x: string, sep: string)
    requires |xs| > 0
    ensures Join(xs + [x], sep) == Join(xs, sep) + sep + x
    decreases |xs|
  {
    if |xs| > 1 {
      assert (xs + [x])[1..] == xs[1..] + [x];
      JoinAppend(xs[1..], x, sep);
    } else {
      assert xs + [x] == [xs[0], x];
      assert [xs[0], x][1..] == [x];
    }
  }

  /** The panel text after a pickup: the prefix and every name, separated by commas. */
  function InventoryText(inventory: seq<string>): (t: string)
    ensures Prefix <= t
    ensures |t| == |Prefix| + JoinedLength(inventory, |Separator|)
  {
    Prefix + Join(inventory, Separator)
  }

  /** Collecting one more name extends the panel text at its end and nowhere else. */
  lemma InventoryTextGrows(inventory: seq<string>, name: string)
    ensures inventory == [] ==> InventoryText(inventory + [name]) == Prefix + name
    ensures inventory != [] ==> InventoryText(inventory + [name]) == InventoryText(inventory) + Separator + name
  {
    if inventory != [] {
      JoinAppend(inventory, name, Separator);
    }
  }

  /**
    The inside scene's initial text, where an empty join is falsy and is
    replaced by "Empty".
   */
  function InsideInitialText(inventory: seq<string>): (t: string)
    ensures inventory == [] || inventory == [""] ==> t == Prefix + "Empty"
    ensures inventory != [] && inventory != [""] ==> t == InventoryText(inventory)
  {
    var joined := Join(inventory, Separator);
    Prefix + (if joined == "" then "Empty" else joined)
  }

  /** Inventories built by the name lookup never hold "", so "Empty" shows only for the empty inventory. */
  lemma InsideInitialTextOfCollected(inventory: seq<string>)
    requires forall i :: 0 <= i < |inventory| ==> inventory[i] != ""
    ensures InsideInitialText(inventory) == (if inventory == [] then Prefix + "Empty" else InventoryText(inventory))
  {
  }

  /** Collecting the same item twice keeps both names. */
  lemma DuplicatesKept()
    ensures InventoryText([StuffedPeanutName, StuffedPeanutName]) == "Inventory: Stuffed Peanut, Stuffed Peanut"
  {
    assert Join([StuffedPeanutName, StuffedPeanutName], Separator) == StuffedPeanutName + Separator + StuffedPeanutName;
  }

  /** The bare label differs from the text of an empty inventory by the missing trailing space. */
  lemma BareLabelHasNoTrailingList()
    ensures BareLabel != InventoryText([])
    ensures BareLabel + " " == InventoryText([])
  {
  }
}

=== FILE: keys.dfy ===
/**
  The keyboard as the scenes see it each frame: the four arrow keys and
  the inventory toggle key.
 */
module Keys {

  /** Down-state of the four arrow keys in one frame. */
  datatype KeyState = KeyState(left: bool, right: bool, up: bool, down: bool)

  const NoKeys := KeyState(false, false, false, false)

  predicate AnyDown(k: KeyState) {
    k.left || k.right || k.up || k.down
  }

  /** Some pair of opposite arrows is held together. */
  predicate Opposing(k: KeyState) {
    (k.left && k.right) || (k.up && k.down)
  }

  /** The toggle fires on the frame the key goes from up to down. */
  predicate JustPressed(wasDown: bool, isDown: bool) {
    isDown && !wasDown
  }

  predicate JustReleased(wasDown: bool, isDown: bool) {
    wasDown && !isDown
  }

  /** Down-state after a run of frame samples. */
  function LastDown(wasDown: bool, samples: seq<bool>): bool {
    if samples == [] then wasDown else samples[|samples| - 1]
  }

  /**
    Frames, among the samples, on which the toggle fires. It never fires on
    two frames in a row, so at most every other frame fires.
   */
  function Presses(wasDown: bool, samples: seq<bool>): (n: nat)
    ensures 2 * n <= |samples| + (if wasDown then 0 else 1)
    decreases |samples|
  {
    if samples == [] then 0
    else (if JustPressed(wasDown, samples[0]) then 1 else 0) + Presses(samples[0], samples[1..])
  }

  function Releases(wasDown: bool, samples: seq<bool>): nat
    decreases |samples|
  {
    if samples == [] then 0
    else (if JustReleased(wasDown, samples[0]) then 1 else 0) + Releases(samples[0], samples[1..])
  }

  /**
    Presses and releases alternate: the toggle fires once per press-and-release
    cycle, however many frames the key is held.
   */
  lemma {:induction false} PressesAlternateWithReleases(wasDown: bool, samples: seq<bool>)
    ensures Presses(wasDown, samples) + (if wasDown then 1 else 0)
         == Releases(wasDown, samples) + (if LastDown(wasDown, samples) then 1 else 0)
    decreases |samples|
  {
    if samples != [] {
      PressesAlternateWithReleases(samples[0], samples[1..]);
      assert LastDown(samples[0], samples[1..]) == LastDown(wasDown, samples);
    }
  }

  /** Holding the key over any number of frames fires the toggle at most once. */
  lemma {:induction false} HeldKeyFiresAtMostOnce(wasDown: bool, samples: seq<bool>)
    requires forall i :: 0 <= i < |samples| ==> samples[i]
    ensures Presses(wasDown, samples) <= 1
    ensures wasDown ==> Presses(wasDown, samples) == 0
    decreases |samples|
  {
    if samples != [] {
      HeldKeyFiresAtMostOnce(true, samples[1..]);
    }
  }
}

=== FILE: movement.dfy ===
/**
  The top-down movement resolvers. Each frame the arrow keys become a
  velocity and an animation decision. Three variants exist: the priority
  chain with one shared walk animation (main and inside scenes), the same
  chain with eight directional animations (the standalone game), and the
  additive resolver in which opposite keys cancel (the base scene).
 */
module Movement {
  import opened Keys
  import Constants

  /** Speed per axis; diagonals are not normalised. */
  const Speed: int := 200

  datatype Velocity = Velocity(x: int, y: int)

  const Rest := Velocity(0, 0)

  /** What the sprite's animation does this frame. */
  datatype Anim = Play(key: string) | Stop

  datatype Outcome = Outcome(velocity: Velocity, anim: Anim)

  /** The discrete per-frame direction the player asks for. */
  datatype Intent = Idle | Up | Down | Left | Right | UpLeft | UpRight | DownLeft | DownRight

  const AllIntents: seq<Intent> := [Idle, Up, Down, Left, Right, UpLeft, UpRight, DownLeft, DownRight]

  lemma AllIntentsListsEachOnce(i: Intent)
    ensures i in AllIntents
    ensures |AllIntents| == 9
    ensures forall a, b :: 0 <= a < b < |AllIntents| ==> AllIntents[a] != AllIntents[b]
  {
  }

  /**
    Reference classification of the keys: a diagonal when some horizontal
    and some vertical key is down, otherwise a single axis, otherwise idle.
    On each axis left wins over right and up wins over down.
   */
  function IntentOf(k: KeyState): (i: Intent)
    ensures i == Idle <==> !AnyDown(k)
    ensures i in {UpLeft, UpRight, DownLeft, DownRight} <==> (k.left || k.right) && (k.up || k.down)
    ensures i in {Left, UpLeft, DownLeft} <==> k.left
    ensures i in {Up, UpLeft, UpRight} <==> k.up
    ensures i in {Right, UpRight, DownRight} <==> k.right && !k.left
    ensures i in {Down, DownLeft, DownRight} <==> k.down && !k.up
  {
    var horizontal := k.left || k.right;
    var vertical := k.up || k.down;
    if horizontal && vertical then
      if k.up then (if k.left then UpLeft else UpRight)
      else (if k.left then DownLeft else DownRight)
    else if horizontal then (if k.left then Left else Right)
    else if vertical then (if k.up then Up else Down)
    else Idle
  }

  /** Velocity of an intent: plus or minus Speed on every axis it moves along. */
  function IntentVelocity(i: Intent): (v: Velocity)
    ensures v.x in {-Speed, 0, Speed} && v.y in {-Speed, 0, Speed}
    ensures v == Rest <==> i == Idle
    ensures v.x < 0 <==> i in {Left, UpLeft, DownLeft}
    ensures v.x > 0 <==> i in {Right, UpRight, DownRight}
    ensures v.y < 0 <==> i in {Up, UpLeft, UpRight}
    ensures v.y > 0 <==> i in {Down, DownLeft, DownRight}
  {
    match i
    case Idle => Rest
    case Up => Velocity(0, -Speed)
    case Down => Velocity(0, Speed)
    case Left => Velocity(-Speed, 0)
    case Right => Velocity(Speed, 0)
    case UpLeft => Velocity(-Speed, -Speed)
    case UpRight => Velocity(Speed, -Speed)
    case DownLeft => Velocity(-Speed, Speed)
    case DownRight => Velocity(Speed, Speed)
  }

  /** Distinct intents move differently, so the nine intents give nine velocities. */
  lemma IntentVelocityInjective(i: Intent, j: Intent)
    ensures IntentVelocity(i) == IntentVelocity(j) ==> i == j
  {
  }

  /** The shared-walk animation decision: walk whenever the player moves. */
  function WalkOrStop(i: Intent): Anim {
    if i == Idle then Stop else Play(Constants.WalkAnim)
  }

  /** The directional animation key of the standalone game, named after the intent. */
  function DirectionalAnim(i: Intent): (a: Anim)
    ensures a == Stop <==> i == Idle
    ensures a.Play? ==> "walk-" <= a.key
  {
    match i
    case Idle => Stop
    case Up => Play("walk-up")
    case Down => Play("walk-down")
    case Left => Play("walk-left")
    case Right => Play("walk-right")
    case UpLeft => Play("walk-up-left")
    case UpRight => Play("walk-up-right")
    case DownLeft => Play("walk-down-left")
    case DownRight => Play("walk-down-right")
  }

  /** Each direction plays its own key: no two intents share an animation. */
  lemma DirectionalAnimInjective(i: Intent, j: Intent)
    ensures DirectionalAnim(i) == DirectionalAnim(j) ==> i == j
  {
  }

  /** Phaser's one-argument `setVelocity(n)` sets both axes to n. */
  function SetVelocity(n: int): Velocity {
    Velocity(n, n)
  }

  /**
    The priority chain of the main and inside scenes: velocity zeroed, then
    the four diagonals checked in the order left+up, right+up, left+down,
    right+down, then the single keys left, right, up, down, each setting
    only its own axis.
    `previous` is never read: the velocity is zeroed before any key is
    looked at, so the last frame's velocity cannot matter. It is a parameter
    only so that the side scroller's carried-over vertical velocity can be
    set against it.
   */
  function ChainResolve(k: KeyState, previous: Velocity): (o: Outcome)
    ensures o.velocity == IntentVelocity(IntentOf(k))
    ensures o.anim == Play(Constants.WalkAnim) <==> AnyDown(k)
    ensures o.anim == Stop <==> !AnyDown(k)
  {
    var v := SetVelocity(0);
    if k.left && k.up then Outcome(Velocity(-Speed, -Speed), Play(Constants.WalkAnim))
    else if k.right && k.up then Outcome(Velocity(Speed, -Speed), Play(Constants.WalkAnim))
    else if k.left && k.down then Outcome(Velocity(-Speed, Speed), Play(Constants.WalkAnim))
    else if k.right && k.down then Outcome(Velocity(Speed, Speed), Play(Constants.WalkAnim))
    else if k.left then Outcome(v.(x := -Speed), Play(Constants.WalkAnim))
    else if k.right then Outcome(v.(x := Speed), Play(Constants.WalkAnim))
    else if k.up then Outcome(v.(y := -Speed), Play(Constants.WalkAnim))
    else if k.down then Outcome(v.(y := Speed), Play(Constants.WalkAnim))
    else Outcome(v, Stop)
  }

  /** The chain's whole outcome is the reference: the intent's velocity, walking unless idle. */
  lemma ChainMatchesReference(k: KeyState, p: Velocity)
    ensures ChainResolve(k, p) == Outcome(IntentVelocity(IntentOf(k)), WalkOrStop(IntentOf(k)))
  {
  }

  /** Diagonal combinations dominate: e.g. left+right+up moves up-left at full speed on both axes. */
  lemma ChainDiagonalPriority(k: KeyState, p: Velocity)
    requires (k.left || k.right) && (k.up || k.down)
    ensures ChainResolve(k, p).velocity.x != 0 && ChainResolve(k, p).velocity.y != 0
    ensures k.left && k.up ==> ChainResolve(k, p).velocity == Velocity(-Speed, -Speed)
  {
  }

  /** A single key down moves on its own axis only. */
  lemma ChainSingleKey(k: KeyState, p: Velocity)
    requires !((k.left || k.right) && (k.up || k.down))
    ensures k.left ==> ChainResolve(k, p).velocity == Velocity(-Speed, 0)
    ensures !k.left && k.right ==> ChainResolve(k, p).velocity == Velocity(Speed, 0)
    ensures !k.left && !k.right && k.up ==> ChainResolve(k, p).velocity == Velocity(0, -Speed)
    ensures !k.left && !k.right && !k.up && k.down ==> ChainResolve(k, p).velocity == Velocity(0, Speed)
  {
  }

  /**
    The standalone game's resolver: the same chain, with an early return after
    each diagonal and an animation key naming the direction. `previous` is
    never read, as in ChainResolve.
   */
  function DirectionalResolve(k: KeyState, previous: Velocity): (o: Outcome)
    ensures o == Outcome(IntentVelocity(IntentOf(k)), DirectionalAnim(IntentOf(k)))
  {
    var v := SetVelocity(0);
    if k.left && k.up then Outcome(Velocity(-Speed, -Speed), Play("walk-up-left"))
    else if k.right && k.up then Outcome(Velocity(Speed, -Speed), Play("walk-up-right"))
    else if k.left && k.down then Outcome(Velocity(-Speed, Speed), Play("walk-down-left"))
    else if k.right && k.down then Outcome(Velocity(Speed, Speed), Play("walk-down-right"))
    else if k.left then Outcome(v.(x := -Speed), Play("walk-left"))
    else if k.right then Outcome(v.(x := Speed), Play("walk-right"))
    else if k.up then Outcome(v.(y := -Speed), Play("walk-up"))
    else if k.down then Outcome(v.(y := Speed), Play("walk-down"))
    else Outcome(v, Stop)
  }

  /** The nine outcomes of the standalone game, one per intent. */
  function DirectionalOutcomes(): (os: seq<Outcome>)
    ensures |os| == 9
    ensures forall a, b :: 0 <= a < b < |os| ==> os[a] != os[b]
  {
    var os := seq(9, n requires 0 <= n < 9 => Outcome(IntentVelocity(AllIntents[n]), DirectionalAnim(AllIntents[n])));
    forall a, b | 0 <= a < b < 9 ensures os[a] != os[b] {
      AllIntentsListsEachOnce(AllIntents[a]);
      IntentVelocityInjective(AllIntents[a], AllIntents[b]);
    }
    os
  }

  /**
    Every key combination lands on exactly one of the nine outcomes, and every
    one of the nine is reached by some combination.
   */
  lemma DirectionalNineOutcomes(k: KeyState, p: Velocity, o: Outcome)
    requires o in DirectionalOutcomes()
    ensures DirectionalResolve(k, p) in DirectionalOutcomes()
    ensures exists k': KeyState :: DirectionalResolve(k', p) == o
  {
    var os := DirectionalOutcomes();
    var i := IntentOf(k);
    AllIntentsListsEachOnce(i);
    var n :| 0 <= n < 9 && AllIntents[n] == i;
    assert os[n] == DirectionalResolve(k, p);
    var m :| 0 <= m < 9 && os[m] == o;
    var w := Witness(AllIntents[m]);
    assert DirectionalResolve(w, p) == o;
  }

  /** A key combination that produces the given intent. */
  function Witness(i: Intent): (k: KeyState)
    ensures IntentOf(k) == i
  {
    match i
    case Idle => NoKeys
    case Up => KeyState(false, false, true, false)
    case Down => KeyState(false, false, false, true)
    case Left => KeyState(true, false, false, false)
    case Right => KeyState(false, true, false, false)
    case UpLeft => KeyState(true, false, true, false)
    case UpRight => KeyState(false, true, true, false)
    case DownLeft => KeyState(true, false, false, true)
    case DownRight => KeyState(false, true, false, true)
  }

  /** The two chains agree on velocity; they differ only in which animation key they name. */
  lemma DirectionalRefinesChain(k: KeyState, p: Velocity)
    ensures DirectionalResolve(k, p).velocity == ChainResolve(k, p).velocity
    ensures DirectionalResolve(k, p).anim.Play? <==> ChainResolve(k, p).anim.Play?
  {
  }

  /**
    The base scene's additive resolver: each axis is the difference of its two
    keys, and the walk animation plays when the sum is not at rest.
    `previous` is never read: both axes are recomputed from the keys.
   */
  function AdditiveResolve(k: KeyState, previous: Velocity): (o: Outcome)
    ensures o.velocity.x in {-Speed, 0, Speed} && o.velocity.y in {-Speed, 0, Speed}
    ensures o.velocity.x == 0 <==> k.left == k.right
    ensures o.velocity.y == 0 <==> k.up == k.down
    ensures o.velocity.x < 0 <==> k.left && !k.right
    ensures o.velocity.y < 0 <==> k.up && !k.down
    ensures o.anim == Play(Constants.WalkAnim) <==> o.velocity != Rest
    ensures o.anim == Stop <==> o.velocity == Rest
  {
    var vx := (if k.right then Speed else 0) - (if k.left then Speed else 0);
    var vy := (if k.down then Speed else 0) - (if k.up then Speed else 0);
    Outcome(Velocity(vx, vy), if vx != 0 || vy != 0 then Play(Constants.WalkAnim) else Stop)
  }

  /** Left and right held alone cancel: no movement and no walk animation. */
  lemma AdditiveOppositesCancel(p: Velocity)
    ensures AdditiveResolve(KeyState(true, true, false, false), p) == Outcome(Rest, Stop)
    ensures AdditiveResolve(KeyState(true, true, true, true), p) == Outcome(Rest, Stop)
  {
  }

  /**
    The additive and the chain resolvers agree exactly on the key
    combinations without an opposing pair.
   */
  lemma AdditiveAgreesWithChainIff(k: KeyState, p: Velocity)
    ensures AdditiveResolve(k, p) == ChainResolve(k, p) <==> !Opposing(k)
  {
    if Opposing(k) {
      assert AdditiveResolve(k, p).velocity != ChainResolve(k, p).velocity;
    }
  }
}

=== FILE: options.dfy ===
/** A value that may be absent, standing in for JavaScript's `undefined`. */
module Options {

  datatype Option<+T> = None | Some(value: T)

}

=== FILE: scenes.dfy ===
/**
  The scenes: the game state they carry, the inventory panel, item pickup,
  the visibility toggle, the per-frame update and the door handoff that
  passes the state to the inside scene.
 */
module Scenes {
  import opened Options
  import opened Constants
  import opened Keys
  import opened Movement
  import opened Inventory

  /** The state carried from scene to scene. */
  datatype GameState = GameState(inventory: seq<string>, inventoryVisible: bool)

  datatype SceneKind = MainScene | InsideScene | BaseScene

  /** The inventory overlay: a background box and a text, shown or hidden separately. */
  datatype Panel = Panel(backgroundVisible: bool, textVisible: bool, text: string)

  datatype Position = Position(x: int, y: int)

  type ItemId = nat

  /** A running scene: its state, its panel, the items still lying in the world (by texture key) and the player's spawn. */
  datatype Scene = Scene(kind: SceneKind, state: GameState, panel: Panel, items: map<ItemId, string>, spawn: Position)

  /** The payload a scene is started with: nothing, or an object that may carry a state. */
  datatype SceneData = NoData | Data(state: Option<GameState>)

  datatype Transition = Transition(target: string, data: SceneData)

  /** The keys read in one frame: the arrows and whether the toggle key was just pressed. */
  datatype FrameInput = FrameInput(keys: KeyState, toggle: bool)

  datatype Frame = Frame(scene: Scene, outcome: Outcome)

  const InsideSceneKey: string := "InsideSceneKey"

  /** The state each scene class starts with before any payload is adopted. */
  function DefaultState(kind: SceneKind): (g: GameState)
    ensures g.inventory == []
    ensures g.inventoryVisible <==> !kind.BaseScene?
  {
    match kind
    case MainScene => GameState([], true)
    case InsideScene => GameState([], true)
    case BaseScene => GameState([], false)
  }

  predicate CarriesState(data: SceneData) {
    data.Data? && data.state.Some?
  }

  /**
    The state a scene runs with once started. The inside and base scenes
    adopt an injected state wholesale; the main scene defines no
    initializer and keeps its default.
   */
  function InitialState(kind: SceneKind, data: SceneData): (g: GameState)
    ensures CarriesState(data) && !kind.MainScene? ==> g == data.state.value
    ensures !CarriesState(data) || kind.MainScene? ==> g == DefaultState(kind)
  {
    match kind
    case MainScene => DefaultState(kind)
    case _ =>
      if CarriesState(data) then data.state.value else DefaultState(kind)
  }

  /** An injected state is never merged with the receiving scene's default. */
  lemma InjectedStateNotMerged(g: GameState, kind: SceneKind)
    requires !kind.MainScene?
    ensures InitialState(kind, Data(Some(g))) == g
    ensures InitialState(kind, Data(None)) == InitialState(kind, NoData) == DefaultState(kind)
  {
  }

  predicate PanelHidden(p: Panel) {
    !p.backgroundVisible && !p.textVisible
  }

  /** The world items of the main scene: one stuffed peanut and one photo frame. */
  const MainItems: map<ItemId, string> := map[0 := StuffedPeanutImage, 1 := PhotoFrameImage]

  /** Builds the main scene: player at (100, 100), two items, a hidden panel with the bare label. */
  function CreateMain(state: GameState): (s: Scene)
    ensures s.kind.MainScene? && s.state == state
    ensures PanelHidden(s.panel) && s.panel.text == BareLabel
    ensures s.spawn == Position(100, 100)
    ensures s.items.Values == {StuffedPeanutImage, PhotoFrameImage} && |s.items| == 2
  {
    assert MainItems.Keys == {0, 1};
    Scene(MainScene, state, Panel(false, false, BareLabel), MainItems, Position(100, 100))
  }

  /** Builds the inside scene: no items, a hidden panel listing the inherited inventory. */
  function CreateInside(state: GameState): (s: Scene)
    ensures s.kind.InsideScene? && s.state == state
    ensures PanelHidden(s.panel)
    ensures s.panel.text == InsideInitialText(state.inventory)
    ensures s.items == map[] && s.spawn == Position(100, 100)
  {
    Scene(InsideScene, state, Panel(false, false, InsideInitialText(state.inventory)), map[], Position(100, 100))
  }

  /** Builds the shared base scene with the player at the spawn the subclass passes in. */
  function CreateBase(state: GameState, playerX: int, playerY: int): (s: Scene)
    ensures s.kind.BaseScene? && s.state == state
    ensures s.spawn.x == playerX && s.spawn.y == playerY
    ensures PanelHidden(s.panel) && s.panel.text == BareLabel
    ensures s.items == map[]
  {
    Scene(BaseScene, state, Panel(false, false, BareLabel), map[], Position(playerX, playerY))
  }

  /**
    Picking an item up: the item leaves the world, its display name is
    appended to the inventory, and the panel text is rebuilt whatever the
    panel's visibility.
   */
  function CollectItem(s: Scene, id: ItemId): (r: Scene)
    requires !s.kind.InsideScene?
    requires id in s.items
    ensures |r.state.inventory| == |s.state.inventory| + 1
    ensures r.state.inventory[..|s.state.inventory|] == s.state.inventory
    ensures r.state.inventory[|s.state.inventory|] == ItemName(s.items[id])
    ensures r.items.Keys == s.items.Keys - {id}
    ensures forall j :: j in r.items ==> r.items[j] == s.items[j]
    ensures r.panel.text == InventoryText(r.state.inventory)
    ensures r.state.inventoryVisible == s.state.inventoryVisible
    ensures r.panel.backgroundVisible == s.panel.backgroundVisible && r.panel.textVisible == s.panel.textVisible
    ensures r.kind == s.kind && r.spawn == s.spawn
  {
    var inventory := s.state.inventory + [ItemName(s.items[id])];
    s.(state := s.state.(inventory := inventory),
       items := s.items - {id},
       panel := s.panel.(text := InventoryText(inventory)))
  }

  /** A collected item is gone from the world, so a later overlap cannot collect it again. */
  lemma CollectedItemGone(s: Scene, id: ItemId)
    requires !s.kind.InsideScene? && id in s.items
    ensures id !in CollectItem(s, id).items
    ensures |CollectItem(s, id).items| == |s.items| - 1
  {
  }

  /** Two items with the same texture both land in the inventory; nothing is deduplicated. */
  lemma CollectKeepsDuplicates(s: Scene, a: ItemId, b: ItemId)
    requires !s.kind.InsideScene? && a in s.items && b in s.items && a != b
    requires s.items[a] == s.items[b]
    ensures var r := CollectItem(CollectItem(s, a), b);
      r.state.inventory == s.state.inventory + [ItemName(s.items[a]), ItemName(s.items[a])]
  {
    var r1 := CollectItem(s, a);
    var r := CollectItem(r1, b);
    assert r.state.inventory == r1.state.inventory + [ItemName(s.items[a])];
  }

  /**
    The names a batch of overlap reports adds: the display name of each id
    that is still in the world when it is first reported.
   */
  function OverlapNames(items: map<ItemId, string>, ids: seq<ItemId>): (names: seq<string>)
    ensures forall i :: 0 <= i < |names| ==> names[i] != ""
    ensures forall i :: 0 <= i < |names| ==> names[i] in {StuffedPeanutName, PictureFrameName, UnknownItem}
    decreases |ids|
  {
    if ids == [] then []
    else if ids[0] in items then [ItemName(items[ids[0]])] + OverlapNames(items - {ids[0]}, ids[1..])
    else OverlapNames(items, ids[1..])
  }

  /** One name per distinct reported id that is present: a repeat adds nothing. */
  lemma {:induction false} OverlapNamesCount(items: map<ItemId, string>, ids: seq<ItemId>)
    ensures |OverlapNames(items, ids)| == |items.Keys * IdSet(ids)|
    decreases |ids|
  {
    if ids == [] {
      assert IdSet(ids) == {};
    } else if ids[0] in items {
      OverlapNamesCount(items - {ids[0]}, ids[1..]);
      OverlapCount(items.Keys, (items - {ids[0]}).Keys, ids);
    } else {
      OverlapNamesCount(items, ids[1..]);
      OverlapCount(items.Keys, items.Keys, ids);
    }
  }

  /**
    Overlaps reported in one physics step, in order: each still-present item
    is collected; an item already destroyed is no longer reported.
   */
  function ProcessOverlaps(s: Scene, ids: seq<ItemId>): (r: Scene)
    requires !s.kind.InsideScene?
    ensures r.items == s.items - IdSet(ids)
    ensures r.state.inventory == s.state.inventory + OverlapNames(s.items, ids)
    ensures |r.state.inventory| == |s.state.inventory| + |s.items.Keys * IdSet(ids)|
    ensures r.state.inventory != s.state.inventory ==> r.panel.text == InventoryText(r.state.inventory)
    ensures r.state.inventory == s.state.inventory ==> r.panel == s.panel
    ensures r.state.inventoryVisible == s.state.inventoryVisible && r.kind == s.kind
    ensures r.panel.backgroundVisible == s.panel.backgroundVisible && r.panel.textVisible == s.panel.textVisible
    decreases |ids|
  {
    OverlapNamesCount(s.items, ids);
    if ids == [] then
      assert IdSet(ids) == {};
      s
    else if ids[0] in s.items then
      var r := ProcessOverlaps(CollectItem(s, ids[0]), ids[1..]);
      OverlapsCollectStep(s, ids, r);
      r
    else
      var r := ProcessOverlaps(s, ids[1..]);
      OverlapsSkipStep(s, ids, r);
      r
  }

  /** The ids a batch of reports mentions. */
  function IdSet(ids: seq<ItemId>): set<ItemId> {
    set i | i in ids
  }

  /** What a batch of overlap reports does to a scene, as ProcessOverlaps promises it. */
  predicate OverlapsEffect(s: Scene, ids: seq<ItemId>, r: Scene) {
    && r.items == s.items - IdSet(ids)
    && r.state.inventory == s.state.inventory + OverlapNames(s.items, ids)
    && (r.state.inventory != s.state.inventory ==> r.panel.text == InventoryText(r.state.inventory))
    && (r.state.inventory == s.state.inventory ==> r.panel == s.panel)
    && r.state.inventoryVisible == s.state.inventoryVisible && r.kind == s.kind
    && r.panel.backgroundVisible == s.panel.backgroundVisible && r.panel.textVisible == s.panel.textVisible
  }

  lemma IdSetSplit(ids: seq<ItemId>)
    requires ids != []
    ensures IdSet(ids) == {ids[0]} + IdSet(ids[1..])
  {
    forall i | i in ids ensures i in {ids[0]} + IdSet(ids[1..]) {
      var n :| 0 <= n < |ids| && ids[n] == i;
      if n > 0 { assert ids[1..][n - 1] == i; }
    }
  }

  /** Inductive step of ProcessOverlaps when the first reported item is still present. */
  lemma OverlapsCollectStep(s: Scene, ids: seq<ItemId>, r: Scene)
    requires !s.kind.InsideScene? && ids != [] && ids[0] in s.items
    requires OverlapsEffect(CollectItem(s, ids[0]), ids[1..], r)
    ensures OverlapsEffect(s, ids, r)
  {
    var next := CollectItem(s, ids[0]);
    var name := ItemName(s.items[ids[0]]);
    assert next.items == s.items - {ids[0]};
    assert next.state.inventory == s.state.inventory + [name];
    IdSetSplit(ids);
    RemoveSplit(s.items, ids[0], IdSet(ids), IdSet(ids[1..]));
    assert r.items == s.items - IdSet(ids);
    assert OverlapNames(s.items, ids) == [name] + OverlapNames(next.items, ids[1..]);
    assert r.state.inventory == next.state.inventory + OverlapNames(next.items, ids[1..]);
    assert r.state.inventory == s.state.inventory + OverlapNames(s.items, ids);
    assert |r.state.inventory| > |s.state.inventory|;
    if r.state.inventory == next.state.inventory {
      assert r.panel == next.panel;
    }
    assert r.panel.text == InventoryText(r.state.inventory);
  }

  /** Inductive step of ProcessOverlaps when the first reported item is already gone. */
  lemma OverlapsSkipStep(s: Scene, ids: seq<ItemId>, r: Scene)
    requires !s.kind.InsideScene? && ids != [] && ids[0] !in s.items
    requires OverlapsEffect(s, ids[1..], r)
    ensures OverlapsEffect(s, ids, r)
  {
    IdSetSplit(ids);
    RemoveSplit(s.items, ids[0], IdSet(ids), IdSet(ids[1..]));
    assert OverlapNames(s.items, ids) == OverlapNames(s.items, ids[1..]);
  }

  /** Removing a set of ids is removing its first id, then the rest. */
  lemma RemoveSplit(m: map<ItemId, string>, h: ItemId, all: set<ItemId>, rest: set<ItemId>)
    requires all == {h} + rest
    ensures (m - {h}) - rest == m - all
    ensures h !in m ==> m - rest == m - all
  {
  }

  /** Two overlap reports of the same item in one step collect it once. */
  lemma RepeatedOverlapCollectsOnce(s: Scene, id: ItemId)
    requires !s.kind.InsideScene? && id in s.items
    ensures ProcessOverlaps(s, [id, id]).state.inventory == s.state.inventory + [ItemName(s.items[id])]
  {
    assert OverlapNames(s.items, [id, id]) == [ItemName(s.items[id])] + OverlapNames(s.items - {id}, [id]);
    assert [id, id][1..] == [id];
    assert [id][1..] == [];
  }

  /** Counting step behind ProcessOverlaps: the head id is collected at most once. */
  lemma OverlapCount(before: set<ItemId>, after: set<ItemId>, ids: seq<ItemId>)
    requires ids != []
    requires after == before - {ids[0]}
    ensures before - IdSet(ids) == after - IdSet(ids[1..])
    ensures |before * IdSet(ids)| == |after * IdSet(ids[1..])| + (if ids[0] in before then 1 else 0)
  {
    var all := IdSet(ids);
    var rest := IdSet(ids[1..]);
    IdSetSplit(ids);
    if ids[0] in before {
      assert before * all == {ids[0]} + (after * rest);
      assert ids[0] !in after * rest;
    } else {
      assert before * all == after * rest;
    }
  }

  /**
    On a just-pressed toggle: the flag flips and both panel parts take the
    new value. Inventory and text are untouched.
   */
  function Toggle(s: Scene): (r: Scene)
    ensures r.state.inventoryVisible == !s.state.inventoryVisible
    ensures r.panel.backgroundVisible == r.state.inventoryVisible
    ensures r.panel.textVisible == r.state.inventoryVisible
    ensures r.state.inventory == s.state.inventory && r.panel.text == s.panel.text
    ensures r.items == s.items && r.kind == s.kind && r.spawn == s.spawn
  {
    var visible := !s.state.inventoryVisible;
    s.(state := s.state.(inventoryVisible := visible),
       panel := s.panel.(backgroundVisible := visible, textVisible := visible))
  }

  /** Two toggles restore the state and leave the panel showing exactly what the flag says. */
  lemma ToggleTwice(s: Scene)
    ensures Toggle(Toggle(s)).state == s.state
    ensures PanelSynced(Toggle(Toggle(s)))
  {
  }

  /** The movement resolver each scene uses; none of them reads `previous`. */
  function Resolve(kind: SceneKind, keys: KeyState, previous: Velocity): (o: Outcome)
    ensures !kind.BaseScene? ==> o == Outcome(IntentVelocity(IntentOf(keys)), WalkOrStop(IntentOf(keys)))
    ensures kind.BaseScene? && !Opposing(keys) ==> o == Outcome(IntentVelocity(IntentOf(keys)), WalkOrStop(IntentOf(keys)))
    ensures kind.BaseScene? && Opposing(keys) ==> o.velocity != IntentVelocity(IntentOf(keys))
  {
    match kind
    case BaseScene =>
      AdditiveAgreesWithChainIff(keys, previous);
      ChainMatchesReference(keys, previous);
      AdditiveResolve(keys, previous)
    case _ => ChainResolve(keys, previous)
  }

  /**
    One update: velocity reset, then the toggle, then movement. A frame
    changes at most the visibility flag and the panel's visibility.
   */
  function Step(s: Scene, input: FrameInput, previous: Velocity): (f: Frame)
    ensures f.scene.state.inventory == s.state.inventory
    ensures f.scene.state.inventoryVisible == (s.state.inventoryVisible != input.toggle)
    ensures f.scene.items == s.items && f.scene.panel.text == s.panel.text
    ensures f.scene.kind == s.kind && f.scene.spawn == s.spawn
    ensures !input.toggle ==> f.scene == s
    ensures f.outcome == Resolve(s.kind, input.keys, previous)
  {
    var t := if input.toggle then Toggle(s) else s;
    Frame(t, Resolve(s.kind, input.keys, SetVelocity(0)))
  }

  function Toggles(inputs: seq<FrameInput>): nat
    decreases |inputs|
  {
    if inputs == [] then 0 else (if inputs[0].toggle then 1 else 0) + Toggles(inputs[1..])
  }

  /** A run of frames, each starting from the velocity the previous frame set. */
  function Run(s: Scene, inputs: seq<FrameInput>, previous: Velocity): (r: Scene)
    ensures r.kind == s.kind && r.spawn == s.spawn
    ensures Toggles(inputs) == 0 ==> r == s
    decreases |inputs|
  {
    if inputs == [] then s
    else
      var f := Step(s, inputs[0], previous);
      Run(f.scene, inputs[1..], f.outcome.velocity)
  }

  /** No frame update ever changes the inventory, the world items or the panel text. */
  lemma {:induction false} RunKeepsInventory(s: Scene, inputs: seq<FrameInput>, previous: Velocity)
    ensures Run(s, inputs, previous).state.inventory == s.state.inventory
    ensures Run(s, inputs, previous).items == s.items
    ensures Run(s, inputs, previous).panel.text == s.panel.text
    decreases |inputs|
  {
    if inputs != [] {
      var f := Step(s, inputs[0], previous);
      RunKeepsInventory(f.scene, inputs[1..], f.outcome.velocity);
    }
  }

  /** After a run the flag has flipped once per toggle press. */
  lemma {:induction false} RunVisibilityParity(s: Scene, inputs: seq<FrameInput>, previous: Velocity)
    ensures Run(s, inputs, previous).state.inventoryVisible == (s.state.inventoryVisible != (Toggles(inputs) % 2 == 1))
    decreases |inputs|
  {
    if inputs != [] {
      var f := Step(s, inputs[0], previous);
      RunVisibilityParity(f.scene, inputs[1..], f.outcome.velocity);
    }
  }

  /** The raw keyboard sample of one frame: the arrows and whether the I key is down. */
  datatype KeySample = KeySample(arrows: KeyState, toggleDown: bool)

  function ToggleDowns(samples: seq<KeySample>): (downs: seq<bool>)
    ensures |downs| == |samples|
    ensures forall i :: 0 <= i < |samples| ==> downs[i] == samples[i].toggleDown
  {
    seq(|samples|, i requires 0 <= i < |samples| => samples[i].toggleDown)
  }

  /** The frame inputs the scenes read: the toggle fires on the I key's up-to-down edge. */
  function InputsFrom(wasDown: bool, samples: seq<KeySample>): (inputs: seq<FrameInput>)
    ensures |inputs| == |samples|
    ensures forall i :: 0 <= i < |samples| ==> inputs[i].keys == samples[i].arrows
    ensures forall i :: 0 <= i < |samples| ==>
      inputs[i].toggle == JustPressed(if i == 0 then wasDown else samples[i - 1].toggleDown, samples[i].toggleDown)
    decreases |samples|
  {
    if samples == [] then []
    else
      var input := FrameInput(samples[0].arrows, JustPressed(wasDown, samples[0].toggleDown));
      [input] + InputsFrom(samples[0].toggleDown, samples[1..])
  }

  /** The toggle frames of a run are exactly the I key's presses. */
  lemma {:induction false} TogglesArePresses(wasDown: bool, samples: seq<KeySample>)
    ensures Toggles(InputsFrom(wasDown, samples)) == Presses(wasDown, ToggleDowns(samples))
    decreases |samples|
  {
    if samples != [] {
      var inputs := InputsFrom(wasDown, samples);
      assert inputs[1..] == InputsFrom(samples[0].toggleDown, samples[1..]);
      assert ToggleDowns(samples)[1..] == ToggleDowns(samples[1..]);
      TogglesArePresses(samples[0].toggleDown, samples[1..]);
    }
  }

  /**
    Holding I across any number of frames flips the panel flag at most once,
    and not at all when the key was already down before the run.
   */
  lemma HeldToggleFlipsAtMostOnce(s: Scene, wasDown: bool, samples: seq<KeySample>, previous: Velocity)
    requires forall i :: 0 <= i < |samples| ==> samples[i].toggleDown
    ensures Toggles(InputsFrom(wasDown, samples)) <= 1
    ensures wasDown ==> Run(s, InputsFrom(wasDown, samples), previous).state.inventoryVisible == s.state.inventoryVisible
  {
    TogglesArePresses(wasDown, samples);
    HeldKeyFiresAtMostOnce(wasDown, ToggleDowns(samples));
    RunVisibilityParity(s, InputsFrom(wasDown, samples), previous);
  }

  /** The toggle never fires on two frames in a row: a firing leaves the key down. */
  lemma NoTogglesInARow(wasDown: bool, samples: seq<KeySample>, i: nat)
    requires i + 1 < |samples|
    ensures !(InputsFrom(wasDown, samples)[i].toggle && InputsFrom(wasDown, samples)[i + 1].toggle)
  {
    var inputs := InputsFrom(wasDown, samples);
    assert inputs[i].toggle == JustPressed(if i == 0 then wasDown else samples[i - 1].toggleDown, samples[i].toggleDown);
    assert inputs[i + 1].toggle == JustPressed(samples[i].toggleDown, samples[i + 1].toggleDown);
  }

  /** After a run of key samples, the flag has flipped once per I key press. */
  lemma SampledRunVisibility(s: Scene, wasDown: bool, samples: seq<KeySample>, previous: Velocity)
    ensures Run(s, InputsFrom(wasDown, samples), previous).state.inventoryVisible
         == (s.state.inventoryVisible != (Presses(wasDown, ToggleDowns(samples)) % 2 == 1))
  {
    TogglesArePresses(wasDown, samples);
    RunVisibilityParity(s, InputsFrom(wasDown, samples), previous);
  }

  /** The door in the main scene starts the inside scene with the current state as payload. */
  function DoorTransition(s: Scene): (t: Transition)
    requires s.kind.MainScene?
    ensures t.target == InsideSceneKey
    ensures CarriesState(t.data) && t.data.state.value == s.state
  {
    Transition(InsideSceneKey, Data(Some(s.state)))
  }

  /** Starting the inside scene from a transition payload. */
  function EnterInside(t: Transition): (s: Scene)
    requires t.target == InsideSceneKey
    ensures s.kind.InsideScene?
    ensures s.state == InitialState(InsideScene, t.data)
    ensures PanelHidden(s.panel)
  {
    CreateInside(InitialState(InsideScene, t.data))
  }

  /**
    The handoff: the inside scene runs with exactly the state the main scene
    had at the door, and its panel lists that inventory (or "Empty").
   */
  lemma HandoffAdoptsStateVerbatim(s: Scene)
    requires s.kind.MainScene?
    ensures EnterInside(DoorTransition(s)).state == s.state
    ensures EnterInside(DoorTransition(s)).panel.text == InsideInitialText(s.state.inventory)
  {
  }

  /**
    End to end: an item picked up while the panel is hidden is already in the
    text when the panel is next shown, with no recomputation on toggle.
   */
  lemma CollectWhileHiddenThenShow(s: Scene, id: ItemId)
    requires !s.kind.InsideScene? && id in s.items
    requires !s.state.inventoryVisible
    ensures var shown := Toggle(CollectItem(s, id));
      shown.panel.textVisible && shown.panel.backgroundVisible
      && shown.panel.text == InventoryText(s.state.inventory + [ItemName(s.items[id])])
  {
    assert CollectItem(s, id).state.inventory == s.state.inventory + [ItemName(s.items[id])];
  }

  /** The panel shows exactly when the state says it should. */
  predicate PanelSynced(s: Scene) {
    s.panel.backgroundVisible == s.state.inventoryVisible && s.panel.textVisible == s.state.inventoryVisible
  }

  /**
    As built, the main scene's fresh state says the panel is visible while the
    panel is created hidden, so the first toggle press changes nothing on screen.
   */
  lemma FreshMainFirstToggleShowsNothing(previous: Velocity)
    ensures var s := CreateMain(InitialState(MainScene, NoData));
      !PanelSynced(s)
      && Step(s, FrameInput(NoKeys, true), previous).scene.panel == s.panel
  {
  }

  /** The panel visibility the scene's state asks for, applied at creation. */
  function ShowPerState(s: Scene): (r: Scene)
    ensures PanelSynced(r)
    ensures r.state == s.state && r.items == s.items && r.panel.text == s.panel.text
  {
    s.(panel := s.panel.(backgroundVisible := s.state.inventoryVisible, textVisible := s.state.inventoryVisible))
  }

  /** Creating a scene with the panel following the state: the panel then never disagrees with the flag. */
  lemma {:induction false} SyncedCreationStaysSynced(s: Scene, inputs: seq<FrameInput>, previous: Velocity)
    requires PanelSynced(s)
    ensures PanelSynced(Run(s, inputs, previous))
    decreases |inputs|
  {
    if inputs != [] {
      var f := Step(s, inputs[0], previous);
      assert PanelSynced(f.scene);
      SyncedCreationStaysSynced(f.scene, inputs[1..], f.outcome.velocity);
    }
  }

  /** With the corrected creation the first toggle press hides a panel that was showing. */
  lemma SyncedMainFirstToggleHides(previous: Velocity)
    ensures var s := ShowPerState(CreateMain(InitialState(MainScene, NoData)));
      s.panel.textVisible
      && !Step(s, FrameInput(NoKeys, true), previous).scene.panel.textVisible
  {
  }

  /** Pickups keep the panel in agreement with the flag. */
  lemma CollectKeepsSynced(s: Scene, id: ItemId)
    requires !s.kind.InsideScene? && id in s.items
    requires PanelSynced(s)
    ensures PanelSynced(CollectItem(s, id))
  {
  }

  /**
    The same mismatch in the inside and base scenes: an inherited state whose
    flag says visible meets a panel created hidden, and the first toggle press
    leaves the panel as it was.
   */
  lemma InheritedVisibleFirstToggleShowsNothing(inventory: seq<string>, x: int, y: int, previous: Velocity)
    ensures var s := EnterInside(Transition(InsideSceneKey, Data(Some(GameState(inventory, true)))));
      !PanelSynced(s) && Step(s, FrameInput(NoKeys, true), previous).scene.panel == s.panel
    ensures var s := CreateBase(InitialState(BaseScene, Data(Some(GameState(inventory, true)))), x, y);
      !PanelSynced(s) && Step(s, FrameInput(NoKeys, true), previous).scene.panel == s.panel
  {
  }

  /** Every entry of the inventory is a non-empty display name. */
  predicate NamesNonEmpty(inventory: seq<string>) {
    forall i :: 0 <= i < |inventory| ==> inventory[i] != ""
  }

  /**
    Inventories built by the scenes hold no empty names: the defaults are
    empty and each pickup appends a looked-up name.
   */
  lemma CollectedNamesNonEmpty(s: Scene, id: ItemId, ids: seq<ItemId>, kind: SceneKind)
    requires !s.kind.InsideScene? && NamesNonEmpty(s.state.inventory)
    ensures NamesNonEmpty(DefaultState(kind).inventory)
    ensures id in s.items ==> NamesNonEmpty(CollectItem(s, id).state.inventory)
    ensures NamesNonEmpty(ProcessOverlaps(s, ids).state.inventory)
  {
    var r := ProcessOverlaps(s, ids);
    var names := OverlapNames(s.items, ids);
    forall i | 0 <= i < |r.state.inventory| ensures r.state.inventory[i] != "" {
      if i >= |s.state.inventory| {
        assert r.state.inventory[i] == names[i - |s.state.inventory|];
      }
    }
  }

  /**
    For a main scene whose inventory came from pickups, the inside scene's
    initial panel reads "Inventory: Empty" exactly when nothing was collected.
   */
  lemma HandoffTextOfCollected(s: Scene)
    requires s.kind.MainScene? && NamesNonEmpty(s.state.inventory)
    ensures var text := EnterInside(DoorTransition(s)).panel.text;
      text == (if s.state.inventory == [] then Prefix + "Empty" else InventoryText(s.state.inventory))
  {
    InsideInitialTextOfCollected(s.state.inventory);
  }
}

=== FILE: side_scroller.dfy ===
/**
  The platformer scene: horizontal walking with a sprite flip, and a jump
  that only fires while the body stands on the ground.
 */
module SideScroller {
  import opened Keys
  import opened Movement
  import Constants

  const JumpSpeed: int := -400

  /** The parts of the player's body the update reads and writes. */
  datatype Body = Body(velocity: Velocity, flipX: bool, touchingDown: bool)

  datatype SideOutcome = SideOutcome(velocity: Velocity, flipX: bool, anim: Anim)

  /**
    One frame: only the horizontal velocity is reset; left wins over right;
    with neither key the animation stops and the facing is kept; the vertical
    velocity is kept from the previous frame unless up is held on the ground.
   */
  function SideUpdate(k: KeyState, body: Body): (o: SideOutcome)
    ensures k.left ==> o.velocity.x == -Speed && o.flipX && o.anim == Play(Constants.WalkAnim)
    ensures !k.left && k.right ==> o.velocity.x == Speed && !o.flipX && o.anim == Play(Constants.WalkAnim)
    ensures !k.left && !k.right ==> o.velocity.x == 0 && o.flipX == body.flipX && o.anim == Stop
    ensures o.velocity.y == JumpSpeed <== k.up && body.touchingDown
    ensures !(k.up && body.touchingDown) ==> o.velocity.y == body.velocity.y
  {
    var v := body.velocity.(x := 0);
    var horizontal :=
      if k.left then SideOutcome(v.(x := -Speed), true, Play("walk"))
      else if k.right then SideOutcome(v.(x := Speed), false, Play("walk"))
      else SideOutcome(v, body.flipX, Stop);
    if k.up && body.touchingDown then horizontal.(velocity := horizontal.velocity.(y := JumpSpeed))
    else horizontal
  }

  /** The horizontal decision does not depend on the jump keys or the ground contact. */
  lemma HorizontalIndependentOfJump(k: KeyState, k': KeyState, b: Body, b': Body)
    requires k.left == k'.left && k.right == k'.right
    requires b.flipX == b'.flipX
    ensures SideUpdate(k, b).velocity.x == SideUpdate(k', b').velocity.x
    ensures SideUpdate(k, b).flipX == SideUpdate(k', b').flipX
    ensures SideUpdate(k, b).anim == SideUpdate(k', b').anim
  {
  }

  /**
    Unlike the top-down chain, which zeroes both axes, a frame with no key
    keeps whatever vertical velocity the body had.
   */
  lemma VerticalVelocityCarriesOver(b: Body, p: Velocity)
    ensures SideUpdate(NoKeys, b).velocity == Velocity(0, b.velocity.y)
    ensures ChainResolve(NoKeys, p).velocity == Rest
  {
  }

  /** On the horizontal axis the platformer picks the same speed as the top-down chain. */
  lemma HorizontalMatchesChain(k: KeyState, b: Body, p: Velocity)
    requires !k.up && !k.down
    ensures SideUpdate(k, b).velocity.x == ChainResolve(k, p).velocity.x
    ensures SideUpdate(k, b).anim == ChainResolve(k, p).anim
  {
  }

  /** Every animation any scene plays while walking is the one shared `"walk"` key. */
  lemma AllScenesShareWalkKey(k: KeyState, b: Body, p: Velocity)
    ensures SideUpdate(k, b).anim.Play? ==> SideUpdate(k, b).anim.key == Constants.WalkAnim
    ensures ChainResolve(k, p).anim.Play? ==> ChainResolve(k, p).anim.key == Constants.WalkAnim
    ensures AdditiveResolve(k, p).anim.Play? ==> AdditiveResolve(k, p).anim.key == Constants.WalkAnim
  {
  }
}
